=== FILE: README.md ===
# Authentication and request gating of the marketplace backend

This project models, in Dafny, the decision logic of the marketplace backend's
authentication layer and the small pure helpers around it:

- the **request gate** (`middleware`), which runs before every page and API
  request. It answers CORS preflights, forwards API calls with CORS headers,
  lets assets through, sends signed-in users away from the sign-in pages and
  anonymous users to them, verifies the session token, keeps non-administrators
  out of `/admin`, and passes the caller's identity on in the `x-user-id` and
  `x-is-admin` request headers;
- the **sign-in handler**, an ordered chain of guards from the request and the
  answers of the user store, the password check and the token signer to a
  status, a message and, on success, the `token` cookie;
- the **session check**, which digs the `token` cookie out of the raw `cookie`
  header, verifies it, looks the user up and always answers 200;
- the **CORS response helpers** `jsonWithCors` and `preflightResponse`;
- the **product list and create handlers**: `page`/`limit` parsing, the
  pagination arithmetic shared by every generated list route, the
  required-field check and the defaulting of a new product.

Everything is modelled as pure functions over datatypes, as the source is
written: early returns become `if`/`match` expressions, thrown exceptions
become the `Thrown` or `None` case of a value. The token verifier, the token
signer, the password comparison and the store are parameters of the handlers
(functions the handler calls), so every property holds whatever those do.
JavaScript's value semantics that the code depends on are written out in
module `Js`: truthiness, `String(v)`, `parseInt`, and `in` on a parsed body.

Modules, one per source file plus helpers: `Wrappers` (Option, Result),
`Strings` (`startsWith`, `includes`, `split`), `Js`, `Accounts` (user record,
store lookup, claims, the secret check at module load), `Cors`, `Middleware`,
`SignIn`, `Session`, `Products`, and `EndToEnd` (properties of a token issued
by sign-in as the gate and the session check see it).

## Behaviour as written

Where the code does something other than what its design intends, the model
follows the code:

- The gate answers preflights only under `/api`; an `OPTIONS` request for a
  page goes through the page rules.
- The gate's origin falls back straight to `http://localhost:3001`; only
  `src/lib/response.ts` consults `NEXT_PUBLIC_API_URL` in between.
- The always-allowed table never decides anything: every entry starts with
  `/api`, which the API branch has already taken (`Middleware.AlwaysAllowedIsApi`).
- A public page with any token, even an invalid one, redirects to `/products`
  without verifying it.
- The gate reads the claim `id`, while sign-in signs the user's id as `userId`.
  A signed-in user's requests therefore carry `x-user-id: undefined`
  (`EndToEnd.GateSeesNoUserIdFromSignIn`).
- In the session check, a store failure happens inside the same `try` as the
  token verification. It is answered as an invalid session (200), not as an
  internal error.
- The session check's "user not found" answer carries no CORS headers. The
  product handler's 400 answer carries none either.

## Model

| member | source | states |
|---|---|---|
| `Accounts.LoadSecret` | src/middleware.ts:5-8 | the module loads exactly when `JWT_SECRET` is set and non-empty, and then uses that value |
| `Middleware.HandleRequest` | src/middleware.ts:5-8 | without a secret no request is handled; with one every request gets the gate's decision |
| `Middleware.Gate` | src/middleware.ts:19-115 | under `/api`: `OPTIONS` gets status 200 with the five preflight headers, anything else is forwarded with the four CORS headers; API paths are never redirected. Other paths under `/_next` or containing `.` are forwarded untouched. A public page redirects to `/products` iff a token is present, unverified. A protected page without a token redirects to `/auth/signin` with `redirect=<path>`. A token that fails verification redirects to sign-in and deletes the cookie. A verified non-admin on an admin page goes to `/`. Otherwise the request is forwarded with `x-user-id`/`x-is-admin` from the `id`/`isAdmin` claims as `String()` and `Headers.set` make them, and only from a verified token. A decision is a preflight iff the path is under `/api` and the verb is `OPTIONS`; the cookie is deleted only when a token was present |
| `Middleware.AlwaysAllowedIsApi` | src/middleware.ts:17 | every path the always-allowed test accepts starts with `/api`, so that test never decides an outcome |
| `Middleware.PublicPathIsAuthPage` | src/middleware.ts:71-77 | every public path starts with `/auth/signin` or `/auth/signup`, so the inner test of the public branch always holds |
| `Middleware.NormalizeHeaderValue` | src/middleware.ts:100-101 | the value `Headers.set` stores is the given value with its leading and trailing HTTP white space removed: a slice `s[i..j]` with only white space outside it, and neither starting nor ending with white space |
| `Middleware.PlainValueStoredUnchanged` | src/middleware.ts:100-101 | a value of byte-sized characters without NUL, CR or LF and without white space at either end is accepted by `Headers.set` and stored unchanged |
| `Middleware.NormalizeIdempotent` | src/middleware.ts:100-101 | storing an already stored value again changes nothing |
| `Middleware.EntryNeedsSeparator` | src/middleware.ts:61-68 | a table entry followed by any character other than `/` is not in the table (`/auth/signinx`, `/administrator`); followed by `/` it is |
| `EndToEnd.SignedPayload` | src/app/api/auth/signin/route.ts:71-79 | the payload of a token issued by sign-in has `userId` and `isAdmin` but no `id` |
| `EndToEnd.GateSeesNoUserIdFromSignIn` | src/middleware.ts:99-101 | with a token issued by sign-in, a protected page is forwarded with `x-user-id` = `undefined` and `x-is-admin` = the user's real flag |
| `EndToEnd.GateSendsNonAdminHome` | src/middleware.ts:94-96 | a signed-in non-administrator asking for an admin page is redirected to `/` |
| `SignIn.IssuedClaims` | src/app/api/auth/signin/route.ts:71-79 | the signed claims are exactly `userId`, `email` and `isAdmin` = administrators present |
| `SignIn.SignIn` | src/app/api/auth/signin/route.ts:13-129 | a missing or non-JSON content type gives 400 before the body is read; an unreadable or `null` body gives 500; a falsy email or password gives 400 before any lookup; every 401 is the one response `Invalid email or password`, and a 401 happens exactly for an unknown email or a wrong password; a store that throws on the lookup gives 500 `Internal server error`; a throwing password check, or a signer that throws after the password matched, gives 500 `An error occurred during login`; a 400 comes only from the content type or missing credentials; statuses are 200, 400, 401 or 500; every request that passes the guards, matches the password and gets a signed token answers 200; a cookie is set iff the status is 200, and then the password matched, the token was signed for one day with the user's claims, the body's `isAdmin` equals the claim, and the cookie is `token`, HTTP-only, same-site strict, max-age 86400, path `/`, secure iff in production |
| `SignIn.UnknownEmailLooksLikeWrongPassword` | src/app/api/auth/signin/route.ts:42-67 | for the same request, an unknown email and a known email with the wrong password get identical responses |
| `SignIn.HandleSignIn` | src/app/api/auth/signin/route.ts:7-11 | without a secret the handler does not load; with one it is `SignIn.SignIn` |
| `Session.CookieText` | src/app/api/auth/session/route.ts:16 | a missing or empty `cookie` header reads as the empty string |
| `Session.FirstWithPrefix` | src/app/api/auth/session/route.ts:19 | `find` stops at the first row with the prefix, or past the end when no row has it |
| `Session.CookieToken` | src/app/api/auth/session/route.ts:17-20 | a token is found iff some `"; "`-separated segment starts with `token=`; it is the text of the first such segment between its first and second `=` |
| `Session.CookieTokenFirst` | src/app/api/auth/session/route.ts:17-20 | a header `token=T; rest` yields `T` |
| `Session.CookieTokenOnly` | src/app/api/auth/session/route.ts:17-24 | a header `token=T` yields `T`, which counts as a token iff it is non-empty |
| `Session.CookieTokenAfter` | src/app/api/auth/session/route.ts:17-20 | a header `c; token=T`, whose first cookie `c` is another one, yields `T` |
| `Session.View` | src/app/api/auth/session/route.ts:47-55 | the session user's `isAdmin` is administrators-present |
| `Session.ViewDropsOnlyPasswordHash` | src/app/api/auth/session/route.ts:47 | two users have the same session view iff they differ at most in their password hash |
| `Session.GetSession` | src/app/api/auth/session/route.ts:13-78 | every answer has status 200; no token gives `user: null` with CORS headers; a failed verification, and equally a verified token whose user lookup throws, gives `user: null`, `Invalid or expired session` and the CORS headers; a verified token whose `userId` is not found gives `user: null` without CORS headers; a session is returned iff the token verifies and its `userId` names a stored user, and it is that user's view |
| `Session.HandleSession` | src/app/api/auth/session/route.ts:5-11 | without a secret the handler does not load; with one it is `Session.GetSession` |
| `EndToEnd.SessionResolvesSignedInUser` | src/app/api/auth/session/route.ts:31-55 | in any `cookie` header from which the token is read, a token issued by sign-in for a user who still exists resolves to that user, and its admin flag equals the token's `isAdmin` claim |
| `EndToEnd.DeletedUserHasNoSession` | src/app/api/auth/session/route.ts:41-44 | in any `cookie` header from which the token is read, a still-valid token of a deleted user gives `user: null`, never a stale session |
| `Cors.Origin` | src/lib/response.ts:4 | the origin is the request's `origin` if non-empty, else `NEXT_PUBLIC_API_URL` if non-empty, else `http://localhost:3001`; never empty |
| `Cors.Merge` | src/lib/response.ts:10-13 | the merged headers have the names of both; the second map wins on a shared name; other caller headers survive unchanged |
| `Cors.JsonWithCors` | src/lib/response.ts:3-16 | body, status (default 200) and status text of the caller's init are kept; `Access-Control-Allow-Origin` and `Access-Control-Allow-Credentials: true` override caller headers of the same name; every other caller header is kept |
| `Cors.PreflightResponse` | src/lib/response.ts:18-30 | status 200, empty body, exactly the five preflight headers with Max-Age 86400 |
| `Js.ParseInt` | src/app/api/products/route.ts:7-8 | `parseInt` never gives Infinity: an integer or NaN |
| `Js.ParseIntDigits` | src/app/api/products/route.ts:7-8 | after white space and an optional sign, a run of decimal digits, leading zeros allowed, gives its signed value, up to the first character that cannot continue it |
| `Js.ParseIntNoDigits` | src/app/api/products/route.ts:7-8 | when no digit follows the white space and the optional sign (so also `"- 5"` and `"--5"`), `parseInt` gives NaN |
| `Js.ParseIntLeadingDigits` | src/app/api/products/route.ts:7-8 | `parseInt` skips leading white space and reads the decimal number up to the first character that cannot continue it (an `x` continues only a lone `0`) |
| `Js.ParseIntOfIntToString` | src/app/api/products/route.ts:76 | `parseInt(String(n))` is `n` for every integer |
| `Strings.ContainsAt` | src/app/api/auth/signin/route.ts:17 | `includes` holds iff the text occurs at some position of the string |
| `Strings.JoinSplit` | src/app/api/auth/session/route.ts:17-18 | joining the parts of `split` with the separator gives the string back |
| `Strings.SplitHeadIsBefore` | src/app/api/auth/session/route.ts:20 | the first part of a split on one character is the text before its first occurrence |
| `Products.QueryNumber` | src/app/api/products/route.ts:7-8 | an absent or empty parameter parses the fallback instead |
| `Products.PageParams` | src/app/api/products/route.ts:7-8 | absent `page` and `limit` are 1 and 10; given ones are parsed with `parseInt` |
| `Products.Skip` | src/app/api/products/route.ts:9 | skip is `(page - 1) * limit`, and NaN iff either is NaN |
| `Products.RowOnExactlyOnePage` | src/app/api/products/route.ts:9-34 | for a positive limit, every row lies in the `[skip, skip + limit)` window of exactly one page, and that page is between 1 and `totalPages` |
| `Products.CeilDivIsLeastCover` | src/app/api/products/route.ts:34 | for a positive divisor the ceiling is the least `n` with `n * b >= a` |
| `Products.CeilDivNegative` | src/app/api/products/route.ts:34 | for a negative divisor the ceiling is the least `n` with `n * b <= a` |
| `Products.TotalPages` | src/app/api/products/route.ts:34 | for a positive limit, totalPages is the least non-negative `n` with `n * limit >= total`; a zero limit gives Infinity, or NaN for no rows; NaN stays NaN |
| `Products.FormatItem` | src/app/api/products/route.ts:24-27 | a falsy price is reported as 0, any other as its number; other columns unchanged |
| `Products.FormatItems` | src/app/api/products/route.ts:24-27 | the list has the same length and each item is formatted in place |
| `Products.ListProducts` | src/app/api/products/route.ts:4-48 | always the two CORS headers; 200 iff the store answered, with the formatted rows, the total, the page and `TotalPages`; otherwise 500 `Failed to fetch products` |
| `Products.MissingFields` | src/app/api/products/route.ts:56-57 | exactly the required fields absent from the body, in their original order |
| `Products.StringOrNull` | src/app/api/products/route.ts:74-80 | null iff the value is falsy, otherwise `String(value)` |
| `Products.IntOrZero` | src/app/api/products/route.ts:76 | the value's `String()` text read by `parseInt`, or 0 when no number can be read; an integer is kept as it is |
| `Products.IntOrZeroReadsLeadingNumber` | src/app/api/products/route.ts:76 | a text stock quantity such as `"12"` or `" 7kg"` gives the number at its start, after leading white space |
| `Products.IntOrZeroOfNonNumericText` | src/app/api/products/route.ts:76 | a text stock quantity with no number at its start (such as `"many"`, `"-"` or `"- 5"`) gives 0 |
| `Products.BuildProductData` | src/app/api/products/route.ts:72-81 | `in_stock` is true when absent and otherwise the truthiness of the given value; description and image URL are null iff falsy and otherwise their `String()` text; `category_id` and `seller_id` are their `String()` text; the price is passed on as given; the name is `String(name)`; the stock quantity is `parseInt` of the value's text, or 0 when that is NaN |
| `Products.CreateProduct` | src/app/api/products/route.ts:50-106 | a body that is not an object gives 500; missing required fields give 400 listing them, without CORS headers and without creating anything; 201 iff the fields are present and the store created the product, with that product; a store that throws on `create` gives 500 `Failed to create product` with the two CORS headers |

## Left out

- Token verification and signing (`jose.jwtVerify`, `jwt.verify`, `jwt.sign`) and `bcrypt.compare` are parameters. Their algorithms, expiry checks and key handling are not modelled. The end-to-end lemmas assume that verification gives back the payload that signing produced.
- The store (Prisma) is a parameter: user lookups, `findMany` with `count`, and `create`. Its argument validation is part of that parameter.
- `request.cookies.get('token')` in the gate is an input: Next.js cookie parsing is not modelled.
- Redirect targets are a path plus the `redirect` query value. Absolute URL construction, URL encoding and the 307 status are not modelled.
- The middleware `config.matcher` (src/middleware.ts:117-129) is framework routing that decides which requests reach the gate. It is not modelled.
- Header names are compared exactly. The case-insensitive merging of the `Headers` class, and `init.headers` given as a `Headers` object or an array, are not modelled.
- Numbers are integers. JSON floats, `parseInt` precision beyond 2^53, and `String(n)` exponent notation from 1e21 on are not modelled. `String()` of objects and arrays is carried as a given string.
- Products.BuildProductData: keeps the raw `price` value, because `parseFloat(price) || 0` is floating point.
- Products.FormatItem: reports `Number(price)` as the abstract price itself, because the decimal-to-float conversion is not modelled.
- Products.CreateProduct: the 500 body leaves out the `details` message and the development-mode stack trace, which come from the thrown error.
- Session.GetSession: the outer `catch` (500) is not modelled. No modelled step outside the inner `try` can throw.
- The user record keeps only the columns this core reads: id, email, username, password hash, active flag and administrators. Other columns of the user table, such as `created_at`, are not modelled. The session answer's rest-spread would copy them as they are.
- `user.administrators` is taken to be a to-one relation, present or null. The Prisma schema is not part of this model. If the relation were to-many, `!!user.administrators` would be true for every user.
- Logging, `async`/`await` and `Promise.all` carry no behaviour and are left out.
- The sign-out handler, the generated CRUD routes, seeding and test scripts, the Prisma client singleton and `next.config.ts` are not part of this model.

=== FILE: Accounts.dfy ===
/** What the authentication code knows of accounts and tokens: the user record
    read from the credential store, the outcome of a store lookup, the claims
    of a session token, and the signing secret every authentication module
    demands when it is loaded. Password hashing, token signing and token
    verification are not modelled: the handlers receive them as functions. */
module Accounts {
  import opened Wrappers
  import opened Js

  /** An administrator privilege record, included with a user by the store. */
  datatype Administrator = Administrator(
    adminLevel: int,
    canManageProducts: bool,
    canManageUsers: bool,
    canManageOrders: bool,
    canManageRefunds: bool)

  /** A user as the store returns it with its administrator relation
      included (`None` when the user has no administrator record). */
  datatype User = User(
    id: string,
    email: string,
    username: string,
    passwordHash: string,
    isActive: bool,
    administrators: Option<Administrator>)

  /** `!!user.administrators`: the one source of the admin flag, used both
      when a token is issued and when a session is resolved. */
  predicate IsAdmin(u: User) {
    u.administrators.Some?
  }

  /** The outcome of `findUnique` on the user table: a user, `null`, or a
      thrown store error (also what an invalid `where` argument gives). */
  datatype Lookup = Found(user: User) | NotFound | StoreFailed

  /** The payload of a session token: claim name to value. A claim that is
      not there reads as `undefined`. */
  type Claims = map<string, JsValue>

  /** `expiresIn: '1d'` of the token, in seconds; also the cookie's max-age. */
  const OneDay: nat := 60 * 60 * 24

  /** Reading `process.env.JWT_SECRET` at module load: a missing or empty
      secret aborts the load (`throw`), modelled as `None`; otherwise the
      secret every verification and signature in that module uses. */
  function LoadSecret(env: Option<string>): (secret: Option<string>)
    ensures secret.Some? <==> env.Some? && env.value != ""
    ensures secret.Some? ==> secret.value == env.value
  {
    if Present(env) then env else None
  }
}

=== FILE: Cors.dfy ===
/** The CORS response helpers `jsonWithCors` and `preflightResponse`
    (src/lib/response.ts) and the header constants every route repeats. */
module Cors {
  import opened Wrappers
  import opened Js

  /** Header name to value. Names are compared exactly as written. */
  type Headers = map<string, string>

  const AllowOrigin := "Access-Control-Allow-Origin"
  const AllowCredentials := "Access-Control-Allow-Credentials"
  const AllowMethods := "Access-Control-Allow-Methods"
  const AllowHeaders := "Access-Control-Allow-Headers"
  const MaxAge := "Access-Control-Max-Age"

  const DefaultOrigin := "http://localhost:3001"
  const AllowedMethods := "GET, POST, PUT, DELETE, OPTIONS, PATCH"
  const AllowedHeaders := "Content-Type, Authorization, Cookie"
  const OneDayInSeconds := "86400"

  /** The origin to allow: the request's `origin` header if it is non-empty,
      else the configured `NEXT_PUBLIC_API_URL` if it is non-empty, else the
      local front end. Route handlers and the middleware pass `None` for the
      configured value: they fall back straight to the default. */
  function Origin(requestOrigin: Option<string>, apiUrl: Option<string>): (origin: string)
    ensures origin != ""
    ensures Present(requestOrigin) ==> origin == requestOrigin.value
    ensures !Present(requestOrigin) && Present(apiUrl) ==> origin == apiUrl.value
    ensures !Present(requestOrigin) && !Present(apiUrl) ==> origin == DefaultOrigin
  {
    if Present(requestOrigin) then requestOrigin.value
    else if Present(apiUrl) then apiUrl.value
    else DefaultOrigin
  }

  /** The two headers `jsonWithCors` and the route handlers add. */
  function CredentialHeaders(origin: string): Headers {
    map[AllowOrigin := origin, AllowCredentials := "true"]
  }

  /** `{ ...caller, ...extra }`: every name of either, the later spread
      winning on a name both have. */
  function Merge(caller: Headers, extra: Headers): (merged: Headers)
    ensures merged.Keys == caller.Keys + extra.Keys
    ensures forall name :: name in extra ==> merged[name] == extra[name]
    ensures forall name :: name in caller && name !in extra ==> merged[name] == caller[name]
  {
    caller + extra
  }

  /** The `init` argument of a response: an optional status and status text
      and the caller's headers (`{}` when it gave none). */
  datatype ResponseInit = ResponseInit(status: Option<int>, statusText: Option<string>, headers: Headers)

  /** A response as `NextResponse.json` builds it: the status defaults to
      200 and the status text to the empty string. */
  datatype Response<T> = Response(body: T, status: int, statusText: string, headers: Headers)

  /** `jsonWithCors(req, body, init)`: the caller's init with only its headers
      replaced by the merge of the caller's headers and the two credential
      headers, which win. */
  function JsonWithCors<T>(requestOrigin: Option<string>, apiUrl: Option<string>, body: T, init: Option<ResponseInit>): (r: Response<T>)
    ensures r.body == body
    ensures init.None? ==> r.status == 200 && r.statusText == "" && r.headers == CredentialHeaders(Origin(requestOrigin, apiUrl))
    ensures init.Some? ==> r.status == init.value.status.GetOr(200) && r.statusText == init.value.statusText.GetOr("")
    ensures AllowOrigin in r.headers && r.headers[AllowOrigin] == Origin(requestOrigin, apiUrl)
    ensures AllowCredentials in r.headers && r.headers[AllowCredentials] == "true"
    ensures init.Some? ==> r.headers.Keys == init.value.headers.Keys + {AllowOrigin, AllowCredentials}
    ensures init.Some? ==> forall name :: name in init.value.headers && name != AllowOrigin && name != AllowCredentials
                              ==> r.headers[name] == init.value.headers[name]
  {
    var caller := if init.Some? then init.value else ResponseInit(None, None, map[]);
    var merged := Merge(caller.headers, CredentialHeaders(Origin(requestOrigin, apiUrl)));
    Response(body, caller.status.GetOr(200), caller.statusText.GetOr(""), merged)
  }

  /** The five headers of a CORS preflight answer. */
  function PreflightHeaders(origin: string): Headers {
    map[AllowOrigin := origin,
        AllowMethods := AllowedMethods,
        AllowHeaders := AllowedHeaders,
        AllowCredentials := "true",
        MaxAge := OneDayInSeconds]
  }

  /** `preflightResponse(req)`: an empty 200 answer carrying exactly the five
      preflight headers. */
  function PreflightResponse(requestOrigin: Option<string>, apiUrl: Option<string>): (r: Response<JsValue>)
    ensures r.status == 200 && r.body == Null
    ensures r.headers.Keys == {AllowOrigin, AllowMethods, AllowHeaders, AllowCredentials, MaxAge}
    ensures |r.headers| == 5
    ensures r.headers[AllowOrigin] == Origin(requestOrigin, apiUrl) && r.headers[AllowCredentials] == "true"
    ensures r.headers[AllowMethods] == AllowedMethods && r.headers[AllowHeaders] == AllowedHeaders
    ensures r.headers[MaxAge] == "86400"
  {
    Response(Null, 200, "", PreflightHeaders(Origin(requestOrigin, apiUrl)))
  }
}

=== FILE: EndToEnd.dfy ===
/** Properties that connect the handlers: a token issued by sign-in, as the
    gate and the session check later see it. `verify` is assumed to give
    back the payload `jwt.sign` produced (the claims plus `iat` and `exp`). */
module EndToEnd {
  import opened Wrappers
  import opened Strings
  import opened Js
  import opened Accounts
  import opened Cors
  import Middleware
  import SignIn
  import Session

  /** The payload of a token signed at time `iat` by sign-in. */
  function SignedPayload(u: User, iat: int): (c: Claims)
    ensures "id" !in c
    ensures Get(c, "userId") == Str(u.id) && Get(c, "isAdmin") == Bool(IsAdmin(u))
  {
    SignIn.IssuedClaims(u) + map["iat" := Num(iat), "exp" := Num(iat + OneDay)]
  }

  /** The texts the gate puts in its headers pass `Headers.set` as they are. */
  lemma PlainHeaderValues()
    ensures Middleware.HeaderValueAccepted("undefined") && Middleware.NormalizeHeaderValue("undefined") == "undefined"
    ensures Middleware.HeaderValueAccepted("true") && Middleware.NormalizeHeaderValue("true") == "true"
    ensures Middleware.HeaderValueAccepted("false") && Middleware.NormalizeHeaderValue("false") == "false"
  {
    Middleware.PlainValueStoredUnchanged("undefined");
    Middleware.PlainValueStoredUnchanged("true");
    Middleware.PlainValueStoredUnchanged("false");
  }

  /** The gate reads the claim `id`, but sign-in signs the user's id as
      `userId`: a signed-in user reaches a protected page with `x-user-id`
      set to the text `undefined`, and `x-is-admin` set from the real flag. */
  lemma GateSeesNoUserIdFromSignIn(
    secret: string, req: Middleware.Request, verify: (string, string) -> Option<Claims>, u: User, iat: int)
    requires Middleware.IsPage(req.pathname) && !Middleware.IsPublicPath(req.pathname)
    requires Present(req.token) && verify(req.token.value, secret) == Some(SignedPayload(u, iat))
    requires !Middleware.IsAdminPath(req.pathname) || IsAdmin(u)
    ensures Middleware.Gate(secret, req, verify)
         == Middleware.ForwardWithContext("undefined", if IsAdmin(u) then "true" else "false")
  {
    PlainHeaderValues();
  }

  /** On an admin page a signed-in non-administrator is sent home. */
  lemma GateSendsNonAdminHome(
    secret: string, req: Middleware.Request, verify: (string, string) -> Option<Claims>, u: User, iat: int)
    requires Middleware.IsPage(req.pathname) && Middleware.IsAdminPath(req.pathname)
    requires Present(req.token) && verify(req.token.value, secret) == Some(SignedPayload(u, iat))
    requires !IsAdmin(u)
    ensures Middleware.Gate(secret, req, verify) == Middleware.Redirect("/", None, false)
  {
  }

  /** A token issued by sign-in, in any `cookie` header that carries it
      (first, alone or after other cookies, see `Session.CookieTokenFirst`,
      `Session.CookieTokenOnly` and `Session.CookieTokenAfter`), presented to
      the session check while its user still exists, resolves to that user,
      with the admin flag the token carries. */
  lemma SessionResolvesSignedInUser(
    secret: string, cookieHeader: Option<string>, t: string, origin: Option<string>,
    verify: (string, string) -> Option<Claims>, findById: JsValue -> Lookup, u: User, iat: int)
    requires Session.CookieToken(cookieHeader) == Some(t) && t != ""
    requires verify(t, secret) == Some(SignedPayload(u, iat))
    requires findById(Str(u.id)) == Found(u)
    ensures Session.GetSession(secret, cookieHeader, origin, verify, findById).body
         == Session.SignedIn(Session.View(u))
    ensures Bool(Session.View(u).isAdmin) == SignIn.IssuedClaims(u)["isAdmin"]
  {
  }

  /** A still-valid token of a user who has since been deleted gives no
      session, not a stale one. */
  lemma DeletedUserHasNoSession(
    secret: string, cookieHeader: Option<string>, t: string, origin: Option<string>,
    verify: (string, string) -> Option<Claims>, findById: JsValue -> Lookup, u: User, iat: int)
    requires Session.CookieToken(cookieHeader) == Some(t) && t != ""
    requires verify(t, secret) == Some(SignedPayload(u, iat))
    requires findById(Str(u.id)) == NotFound
    ensures Session.GetSession(secret, cookieHeader, origin, verify, findById)
         == Session.SessionResponse(200, Session.Anonymous(None), map[])
  {
  }
}

=== FILE: Js.dfy ===
/** The JavaScript value semantics the handlers depend on: which values are
    truthy, what `String(v)` gives, and `parseInt`. Values are those a JSON
    body or a token's claims can hold; numbers are restricted to integers. */
module Js {
  import opened Wrappers
  import opened Strings

  /** A JSON-ish JavaScript value. `Undefined` is what reading a missing
      property gives. `Compound` is an object or an array; its `String()`
      conversion is not modelled and is carried along instead. */
  datatype JsValue =
    | Undefined
    | Null
    | Bool(b: bool)
    | Num(n: int)
    | Str(s: string)
    | Compound(asString: string)

  /** A request body as `await request.json()` yields it: text that is not
      JSON (`json()` throws), `null`, another primitive, or an object or
      array with its properties. */
  datatype JsonBody = Malformed | JsonNull | Primitive | Object(fields: map<string, JsValue>)

  /** `const { name } = body` once `json()` has returned: a property of an
      object, `undefined` on a primitive (destructuring `null` throws and is
      not asked here). */
  function Field(body: JsonBody, name: string): (v: JsValue)
    requires body != Malformed && body != JsonNull
    ensures body.Primitive? ==> v == Undefined
  {
    if body.Object? then Get(body.fields, name) else Undefined
  }

  /** `!!v` */
  predicate Truthy(v: JsValue) {
    match v
    case Undefined => false
    case Null => false
    case Bool(b) => b
    case Num(n) => n != 0
    case Str(s) => s != ""
    case Compound(_) => true
  }

  /** An optional string (a header, a search parameter, an environment
      variable) used in a boolean context: present and non-empty. */
  predicate Present(o: Option<string>) {
    o.Some? && o.value != ""
  }

  /** `object[property]`: the property's value, or `undefined` when the
      object does not have it. */
  function Get(fields: map<string, JsValue>, key: string): (v: JsValue)
    ensures key !in fields ==> v == Undefined
  {
    if key in fields then fields[key] else Undefined
  }

  /** `String(v)` */
  function ToString(v: JsValue): (r: string)
    ensures v.Str? ==> r == v.s
    ensures v.Bool? ==> r == (if v.b then "true" else "false")
  {
    match v
    case Undefined => "undefined"
    case Null => "null"
    case Bool(b) => if b then "true" else "false"
    case Num(n) => IntToString(n)
    case Str(s) => s
    case Compound(t) => t
  }

  /** A number as the handlers see it: `parseInt` gives an integer or NaN,
      and dividing by zero gives Infinity. */
  datatype Number = Int(v: int) | NaN | Infinity

  // ---------------------------------------------------------------------
  // Integer to decimal text

  function DecimalDigit(d: nat): (c: char)
    requires d < 10
    ensures '0' <= c <= '9' && DigitValue(c) == d
  {
    "0123456789"[d]
  }

  /** Decimal text of a natural number, without leading zeros. */
  function NatToString(m: nat): (r: string)
    ensures |r| >= 1
    ensures forall i :: 0 <= i < |r| ==> '0' <= r[i] <= '9'
    ensures |r| > 1 ==> r[0] != '0'
  {
    if m < 10 then [DecimalDigit(m)] else NatToString(m / 10) + [DecimalDigit(m % 10)]
  }

  /** `String(n)` for an integer number. */
  function IntToString(n: int): (r: string)
    ensures n < 0 ==> r == "-" + NatToString(-n)
    ensures n >= 0 ==> r == NatToString(n)
  {
    if n < 0 then "-" + NatToString(-n) else NatToString(n)
  }

  // ---------------------------------------------------------------------
  // parseInt

  /** The characters `parseInt` skips before the number: the ECMAScript
      white space and line terminators. */
  predicate IsWhiteSpace(c: char) {
    var k := c as int;
    || 0x09 <= k <= 0x0D || k == 0x20 || k == 0xA0 || k == 0x1680
    || 0x2000 <= k <= 0x200A || k == 0x2028 || k == 0x2029 || k == 0x202F
    || k == 0x205F || k == 0x3000 || k == 0xFEFF
  }

  /** `s` without its leading white space. */
  function TrimStart(s: string): (r: string)
    ensures |r| <= |s| && r == s[|s| - |r|..]
    ensures r != [] ==> !IsWhiteSpace(r[0])
    ensures s != [] && !IsWhiteSpace(s[0]) ==> r == s
    decreases |s|
  {
    if s != [] && IsWhiteSpace(s[0]) then TrimStart(s[1..]) else s
  }

  /** The value of a digit character in bases up to 36 (letters in either
      case count from 10). */
  function DigitValue(c: char): nat {
    if '0' <= c <= '9' then c as int - '0' as int
    else if 'a' <= c <= 'z' then c as int - 'a' as int + 10
    else if 'A' <= c <= 'Z' then c as int - 'A' as int + 10
    else 36
  }

  predicate IsDigitOf(c: char, radix: nat) {
    DigitValue(c) < radix
  }

  /** The longest prefix of `s` made of digits of the given radix. */
  function DigitPrefix(s: string, radix: nat): (r: string)
    ensures StartsWith(s, r)
    ensures forall i :: 0 <= i < |r| ==> IsDigitOf(r[i], radix)
    ensures |r| < |s| ==> !IsDigitOf(s[|r|], radix)
  {
    if s != [] && IsDigitOf(s[0], radix) then [s[0]] + DigitPrefix(s[1..], radix) else []
  }

  /** The value of a string of digits, most significant first. */
  function DigitsValue(ds: string, radix: nat): nat
    decreases |ds|
  {
    if ds == [] then 0 else DigitsValue(ds[..|ds| - 1], radix) * radix + DigitValue(ds[|ds| - 1])
  }

  /** `parseInt(s)` with no radix argument: skip leading white space, then
      read a signed number; no digits at all is NaN. */
  function ParseInt(s: string): (r: Number)
    ensures r != Infinity
  {
    ParseSigned(TrimStart(s))
  }

  /** `parseInt` after the white space: an optional sign, then the
      magnitude. */
  function ParseSigned(t: string): (r: Number)
    ensures r != Infinity
  {
    if t != [] && t[0] == '-' then
      match Magnitude(t[1..])
      case None => NaN
      case Some(k) => Int(-(k as int))
    else
      var u := if t != [] && t[0] == '+' then t[1..] else t;
      match Magnitude(u)
      case None => NaN
      case Some(k) => Int(k)
  }

  /** The unsigned part of `parseInt`: a `0x`/`0X` prefix selects base 16,
      otherwise base 10; then as many digits as there are. */
  function Magnitude(u: string): Option<nat> {
    var hex := |u| >= 2 && u[0] == '0' && (u[1] == 'x' || u[1] == 'X');
    var radix := if hex then 16 else 10;
    var digits := DigitPrefix(if hex then u[2..] else u, radix);
    if digits == [] then None else Some(DigitsValue(digits, radix))
  }

  lemma {:induction false} DigitsValueOfNatToString(m: nat)
    ensures DigitsValue(NatToString(m), 10) == m
  {
    var r := NatToString(m);
    if m >= 10 {
      DigitsValueOfNatToString(m / 10);
      assert r[..|r| - 1] == NatToString(m / 10);
    }
  }

  /** The magnitude of a non-empty string of decimal digits (leading zeros
      allowed) followed by text that cannot continue it. */
  lemma MagnitudeOfDigits(ds: string, rest: string)
    requires ds != [] && forall i :: 0 <= i < |ds| ==> '0' <= ds[i] <= '9'
    requires rest == [] || !('0' <= rest[0] <= '9')
    requires !(ds == "0" && rest != [] && (rest[0] == 'x' || rest[0] == 'X'))
    ensures Magnitude(ds + rest) == Some(DigitsValue(ds, 10))
  {
    var t := ds + rest;
    assert !(|t| >= 2 && t[0] == '0' && (t[1] == 'x' || t[1] == 'X')) by {
      assert t[0] == ds[0];
      if |ds| == 1 && rest != [] { assert t[1] == rest[0]; assert ds == [ds[0]]; }
      else if |ds| > 1 { assert t[1] == ds[1]; }
    }
    forall i | 0 <= i < |ds| ensures IsDigitOf(ds[i], 10) {
      assert '0' <= ds[i] <= '9';
    }
    assert rest != [] ==> !IsDigitOf(rest[0], 10);
    DigitPrefixStopsAt(ds, rest, 10);
  }

  /** White space before a non-blank text is all `TrimStart` removes. */
  lemma {:induction false} TrimStartSkipsWhiteSpace(ws: string, s: string)
    requires forall i :: 0 <= i < |ws| ==> IsWhiteSpace(ws[i])
    requires s == [] || !IsWhiteSpace(s[0])
    ensures TrimStart(ws + s) == s
    decreases |ws|
  {
    if ws != [] {
      assert (ws + s)[1..] == ws[1..] + s;
      TrimStartSkipsWhiteSpace(ws[1..], s);
    } else {
      assert ws + s == s;
    }
  }

  /** `DigitPrefix` stops at the first character that is not a digit. */
  lemma {:induction false} DigitPrefixStopsAt(d: string, rest: string, radix: nat)
    requires forall i :: 0 <= i < |d| ==> IsDigitOf(d[i], radix)
    requires rest == [] || !IsDigitOf(rest[0], radix)
    ensures DigitPrefix(d + rest, radix) == d
    decreases |d|
  {
    if d != [] {
      assert (d + rest)[0] == d[0];
      assert (d + rest)[1..] == d[1..] + rest;
      DigitPrefixStopsAt(d[1..], rest, radix);
      assert [d[0]] + d[1..] == d;
    } else {
      assert d + rest == rest;
    }
  }

  /** The sign `parseInt` may read before the digits. */
  datatype Sign = NoSign | Minus | Plus

  function SignText(sg: Sign): (t: string)
    ensures |t| <= 1
    ensures t == [] <==> sg == NoSign
  {
    match sg
    case NoSign => ""
    case Minus => "-"
    case Plus => "+"
  }

  /** A magnitude with the sign applied. */
  function Signed(sg: Sign, k: nat): (n: int)
    ensures sg == Minus ==> n == -(k as int)
    ensures sg != Minus ==> n == k
  {
    if sg == Minus then -(k as int) else k
  }

  lemma ConcatAssoc(a: string, b: string, c: string, d: string)
    ensures a + b + c + d == a + (b + (c + d))
  {
  }

  /** `parseInt` reads what follows its leading white space. */
  lemma ParseIntAfterWhiteSpace(ws: string, t: string)
    requires forall i :: 0 <= i < |ws| ==> IsWhiteSpace(ws[i])
    requires t == [] || !IsWhiteSpace(t[0])
    ensures ParseInt(ws + t) == ParseSigned(t)
  {
    TrimStartSkipsWhiteSpace(ws, t);
  }

  /** After the white space, a sign applies to the magnitude of the text
      that follows it, provided that text does not start with a sign. */
  lemma ParseSignedSign(sg: Sign, u: string)
    requires u == [] || (u[0] != '-' && u[0] != '+')
    ensures ParseSigned(SignText(sg) + u)
         == (match Magnitude(u) case None => NaN case Some(k) => Int(Signed(sg, k)))
  {
    match sg
    case NoSign =>
      assert SignText(sg) + u == u;
    case Minus =>
      assert (SignText(sg) + u)[0] == '-';
      assert (SignText(sg) + u)[1..] == u;
    case Plus =>
      assert (SignText(sg) + u)[0] == '+';
      assert (SignText(sg) + u)[1..] == u;
  }

  /** `parseInt` in general: after white space and an optional sign, a
      run of decimal digits (leading zeros allowed) is read up to the first
      character that cannot continue it, and carries the sign. */
  lemma ParseIntDigits(ws: string, sg: Sign, ds: string, rest: string)
    requires forall i :: 0 <= i < |ws| ==> IsWhiteSpace(ws[i])
    requires ds != [] && forall i :: 0 <= i < |ds| ==> '0' <= ds[i] <= '9'
    requires rest == [] || !('0' <= rest[0] <= '9')
    requires !(ds == "0" && rest != [] && (rest[0] == 'x' || rest[0] == 'X'))
    ensures ParseInt(ws + SignText(sg) + ds + rest) == Int(Signed(sg, DigitsValue(ds, 10)))
  {
    var u := ds + rest;
    assert u[0] == ds[0];
    MagnitudeOfDigits(ds, rest);
    ParseIntSignedMagnitude(ws, sg, u, DigitsValue(ds, 10));
    ConcatAssoc(ws, SignText(sg), ds, rest);
  }

  /** White space, a sign, and text with a magnitude. */
  lemma ParseIntSignedMagnitude(ws: string, sg: Sign, u: string, k: nat)
    requires forall i :: 0 <= i < |ws| ==> IsWhiteSpace(ws[i])
    requires u != [] && '0' <= u[0] <= '9'
    requires Magnitude(u) == Some(k)
    ensures ParseInt(ws + (SignText(sg) + u)) == Int(Signed(sg, k))
  {
    var t := SignText(sg) + u;
    assert t[0] == (if sg == NoSign then u[0] else SignText(sg)[0]);
    ParseIntAfterWhiteSpace(ws, t);
    ParseSignedSign(sg, u);
  }

  /** `parseInt` gives NaN when, after white space and an optional sign,
      no digit follows. */
  lemma ParseIntNoDigits(ws: string, sg: Sign, rest: string)
    requires forall i :: 0 <= i < |ws| ==> IsWhiteSpace(ws[i])
    requires rest == [] || !('0' <= rest[0] <= '9')
    requires sg == NoSign ==> rest == [] || !(rest[0] == '-' || rest[0] == '+' || IsWhiteSpace(rest[0]))
    ensures ParseInt(ws + SignText(sg) + rest) == NaN
  {
    var t := SignText(sg) + rest;
    assert ws + SignText(sg) + rest == ws + t;
    assert Magnitude(rest).None? by {
      if rest != [] {
        assert !IsDigitOf(rest[0], 10);
        assert rest[0] != '0';
      }
    }
    match sg
    case NoSign =>
      assert t == rest;
      ParseIntAfterWhiteSpace(ws, t);
    case Minus =>
      assert t[0] == '-' && t[1..] == rest;
      ParseIntAfterWhiteSpace(ws, t);
    case Plus =>
      assert t[0] == '+' && t[1..] == rest;
      ParseIntAfterWhiteSpace(ws, t);
  }

  /** `parseInt` skips leading white space and reads a decimal number up to
      the first character that cannot continue it (a digit, or the `x` of a
      hex prefix after a lone `0`): `parseInt(" 7kg")` and `parseInt(" 7x")`
      are 7. */
  lemma ParseIntLeadingDigits(ws: string, m: nat, rest: string)
    requires forall i :: 0 <= i < |ws| ==> IsWhiteSpace(ws[i])
    requires rest == [] || !('0' <= rest[0] <= '9' || (m == 0 && (rest[0] == 'x' || rest[0] == 'X')))
    ensures ParseInt(ws + NatToString(m) + rest) == Int(m)
  {
    var d := NatToString(m);
    assert ParseInt(ws + SignText(NoSign) + d + rest) == Int(m) by {
      DigitsValueOfNatToString(m);
      assert d == "0" ==> m == 0;
      ParseIntDigits(ws, NoSign, d, rest);
    }
    assert SignText(NoSign) == [];
    assert ws + SignText(NoSign) + d + rest == ws + d + rest by {
      assert ws + SignText(NoSign) == ws;
    }
  }

  /** Printing an integer and parsing it back gives the same integer:
      `parseInt(String(n)) === n`. */
  lemma ParseIntOfIntToString(n: int)
    ensures ParseInt(IntToString(n)) == Int(n)
  {
    var sg := if n < 0 then Minus else NoSign;
    var m: nat := if n < 0 then -n else n;
    var d := NatToString(m);
    assert IntToString(n) == [] + SignText(sg) + d + [];
    ParseIntDigits([], sg, d, []);
    DigitsValueOfNatToString(m);
  }
}

=== FILE: Middleware.dfy ===
/** The request gate (src/middleware.ts): a first-match-wins decision, per
    request, between answering a CORS preflight, forwarding (with CORS
    headers, untouched, or with the caller's identity) and redirecting. */
module Middleware {
  import opened Wrappers
  import opened Strings
  import opened Js
  import opened Accounts
  import opened Cors

  /** Pages reachable without a session. */
  const PublicPaths: seq<string> := ["/auth/signin", "/auth/signup"]
  /** Pages reserved to administrators. */
  const AdminPaths: seq<string> := ["/admin"]
  /** Paths the gate lets through by prefix. */
  const AlwaysAllowedPaths: seq<string> := ["/api/auth/signin", "/api/auth/session"]

  /** What the gate reads of a request: the path, the method (`verb`), the `origin`
      header and the value of the `token` cookie. */
  datatype Request = Request(pathname: string, verb: string, origin: Option<string>, token: Option<string>)

  /** What the gate does with a request.
      - `Preflight`: answers at once, with an empty body, status and headers.
      - `ForwardWithCors`: passes the request on and adds these headers to
        the handler's response.
      - `Forward`: passes the request on untouched.
      - `ForwardWithContext`: passes the request on with the request headers
        `x-user-id` and `x-is-admin` set to these values.
      - `Redirect`: redirects to `target` on the same origin, with the query
        parameter `redirect` when `returnTo` is given, deleting the `token`
        cookie when `clearToken` holds. */
  datatype Decision =
    | Preflight(status: int, headers: Headers)
    | ForwardWithCors(headers: Headers)
    | Forward
    | ForwardWithContext(userId: string, isAdmin: string)
    | Redirect(target: string, returnTo: Option<string>, clearToken: bool)

  /** `pathname === path || pathname.startsWith(`${path}/`)` */
  predicate MatchesEntry(pathname: string, path: string) {
    pathname == path || StartsWith(pathname, path + "/")
  }

  predicate IsPublicPath(pathname: string) {
    exists i :: 0 <= i < |PublicPaths| && MatchesEntry(pathname, PublicPaths[i])
  }

  predicate IsAdminPath(pathname: string) {
    exists i :: 0 <= i < |AdminPaths| && MatchesEntry(pathname, AdminPaths[i])
  }

  /** Note: a plain prefix test, unlike the two tables above. */
  predicate IsAlwaysAllowed(pathname: string) {
    exists i :: 0 <= i < |AlwaysAllowedPaths| && StartsWith(pathname, AlwaysAllowedPaths[i])
  }

  /** A path past the API branch and the asset bypass: the only paths for
      which the page rules (public, token, admin) are consulted. */
  predicate IsPage(pathname: string) {
    !StartsWith(pathname, "/api") && !StartsWith(pathname, "/_next") && '.' !in pathname
  }

  /** The four headers added to every forwarded API request's response. */
  function ApiCorsHeaders(origin: string): Headers {
    map[AllowOrigin := origin,
        AllowCredentials := "true",
        AllowMethods := AllowedMethods,
        AllowHeaders := AllowedHeaders]
  }

  // -----------------------------------------------------------------------
  // `Headers.set`: how a header value is converted, trimmed and checked

  predicate IsHttpWhitespace(c: char) {
    c == '\t' || c == '\n' || c == '\r' || c == ' '
  }

  /** How many HTTP white space characters `s` starts with. */
  function LeadingSpace(s: string): (n: nat)
    ensures n <= |s|
    ensures forall k :: 0 <= k < n ==> IsHttpWhitespace(s[k])
    ensures n < |s| ==> !IsHttpWhitespace(s[n])
    decreases |s|
  {
    if s != [] && IsHttpWhitespace(s[0]) then 1 + LeadingSpace(s[1..]) else 0
  }

  /** How many HTTP white space characters `s` ends with. */
  function TrailingSpace(s: string): (n: nat)
    ensures n <= |s|
    ensures forall k :: |s| - n <= k < |s| ==> IsHttpWhitespace(s[k])
    ensures n < |s| ==> !IsHttpWhitespace(s[|s| - 1 - n])
    decreases |s|
  {
    if s != [] && IsHttpWhitespace(s[|s| - 1]) then 1 + TrailingSpace(s[..|s| - 1]) else 0
  }

  /** `r` is `s[i..j]` and everything of `s` outside it is HTTP white space. */
  predicate IsTrimOf(s: string, r: string, i: int, j: int) {
    && 0 <= i <= j <= |s| && r == s[i..j]
    && (forall k :: 0 <= k < i ==> IsHttpWhitespace(s[k]))
    && (forall k :: j <= k < |s| ==> IsHttpWhitespace(s[k]))
  }

  /** The value actually stored: `s` without its leading and trailing HTTP
      white space. */
  function NormalizeHeaderValue(s: string): (r: string)
    ensures r != [] ==> !IsHttpWhitespace(r[0]) && !IsHttpWhitespace(r[|r| - 1])
    ensures exists i, j :: IsTrimOf(s, r, i, j)
  {
    var i := LeadingSpace(s);
    var j := if i == |s| then |s| else |s| - TrailingSpace(s);
    assert i <= j;
    assert IsTrimOf(s, s[i..j], i, j);
    s[i..j]
  }

  /** `set` throws unless every character fits in a byte and the trimmed
      value has no NUL, CR or LF. */
  predicate HeaderValueAccepted(s: string) {
    (forall i :: 0 <= i < |s| ==> s[i] as int <= 0xFF)
    && '\0' !in NormalizeHeaderValue(s)
    && '\n' !in NormalizeHeaderValue(s)
    && '\r' !in NormalizeHeaderValue(s)
  }

  /** A value of byte-sized characters, free of NUL, CR and LF and with no
      HTTP white space at either end, is accepted and stored unchanged. */
  lemma PlainValueStoredUnchanged(s: string)
    requires forall i :: 0 <= i < |s| ==> s[i] as int <= 0xFF
    requires '\0' !in s && '\n' !in s && '\r' !in s
    requires s != [] ==> !IsHttpWhitespace(s[0]) && !IsHttpWhitespace(s[|s| - 1])
    ensures NormalizeHeaderValue(s) == s
    ensures HeaderValueAccepted(s)
  {
    assert s != [] ==> LeadingSpace(s) == 0 && TrailingSpace(s) == 0;
  }

  /** Storing a stored value again changes nothing. */
  lemma NormalizeIdempotent(s: string)
    ensures NormalizeHeaderValue(NormalizeHeaderValue(s)) == NormalizeHeaderValue(s)
  {
    var r := NormalizeHeaderValue(s);
    assert r != [] ==> LeadingSpace(r) == 0 && TrailingSpace(r) == 0;
  }

  // -----------------------------------------------------------------------
  // Facts about the path tables

  /** Every always-allowed entry lies under `/api`, so a path the always-allowed
      test accepts has already been decided by the API branch. */
  lemma AlwaysAllowedIsApi(pathname: string)
    ensures IsAlwaysAllowed(pathname) ==> StartsWith(pathname, "/api")
  {
  }

  /** The inner test of the public branch always holds: every public path
      starts with `/auth/signin` or `/auth/signup`. */
  lemma PublicPathIsAuthPage(pathname: string)
    ensures IsPublicPath(pathname) ==>
      StartsWith(pathname, "/auth/signin") || StartsWith(pathname, "/auth/signup")
  {
  }

  /** A table entry followed by anything but `/` is not in the table:
      `/auth/signinx` is not public and `/administrator` is not an admin
      page, while `/auth/signin/x` and `/admin/x` are. */
  lemma {:induction false} EntryNeedsSeparator(path: string, c: char, rest: string)
    requires path in PublicPaths || path in AdminPaths
    requires c != '/'
    ensures path in PublicPaths ==> !IsPublicPath(path + [c] + rest) && IsPublicPath(path + "/" + rest)
    ensures path in AdminPaths ==> !IsAdminPath(path + [c] + rest) && IsAdminPath(path + "/" + rest)
  {
    var p := path + [c] + rest;
    var q := path + "/" + rest;
    assert p[|path|] == c;
    assert StartsWith(q, path + "/");
    forall i | 0 <= i < |PublicPaths|
      ensures !MatchesEntry(p, PublicPaths[i])
    {
      var e := PublicPaths[i];
      if e == path {
        assert |p| > |e|;
        assert (e + "/")[|e|] == '/';
      } else if path in PublicPaths {
        assert e[10] != path[10];
        assert p[10] == path[10];
      } else {
        assert e[2] != path[2];
        assert p[2] == path[2];
      }
    }
    forall i | 0 <= i < |AdminPaths|
      ensures !MatchesEntry(p, AdminPaths[i])
    {
      var e := AdminPaths[i];
      if e == path {
        assert |p| > |e|;
        assert (e + "/")[|e|] == '/';
      } else {
        assert e[2] != path[2];
        assert p[2] == path[2];
      }
    }
    if path in PublicPaths {
      var j :| 0 <= j < |PublicPaths| && PublicPaths[j] == path;
      assert MatchesEntry(q, PublicPaths[j]);
    } else {
      assert MatchesEntry(q, AdminPaths[0]);
    }
  }

  // -----------------------------------------------------------------------
  // The gate

  /** `middleware(request)` once the module has loaded with `secret`;
      `verify(token, secret)` stands for `jose.jwtVerify`, giving the
      token's payload or `None` when it throws. */
  function Gate(secret: string, req: Request, verify: (string, string) -> Option<Claims>): (d: Decision)
    // API paths: preflight answered at once, everything else forwarded with
    // the four CORS headers; never a redirect, whatever the cookie.
    ensures StartsWith(req.pathname, "/api") && req.verb == "OPTIONS" ==>
      d == Preflight(200, PreflightHeaders(Origin(req.origin, None)))
    ensures StartsWith(req.pathname, "/api") && req.verb != "OPTIONS" ==>
      d == ForwardWithCors(ApiCorsHeaders(Origin(req.origin, None)))
    // Build assets and file paths pass untouched.
    ensures !StartsWith(req.pathname, "/api") && (StartsWith(req.pathname, "/_next") || '.' in req.pathname) ==>
      d == Forward
    // Public pages: any token at all, verified or not, redirects to /products.
    ensures IsPage(req.pathname) && IsPublicPath(req.pathname) ==>
      d == (if Present(req.token) then Redirect("/products", None, false) else Forward)
    // Protected pages without a token: to sign-in, remembering the path.
    ensures IsPage(req.pathname) && !IsPublicPath(req.pathname) && !Present(req.token) ==>
      d == Redirect("/auth/signin", Some(req.pathname), false)
    // A token that does not verify: to sign-in, deleting the cookie.
    ensures IsPage(req.pathname) && !IsPublicPath(req.pathname) && Present(req.token)
            && verify(req.token.value, secret).None? ==>
      d == Redirect("/auth/signin", None, true)
    // A verified token: a non-admin on an admin page goes to the home page;
    // otherwise the request is forwarded with the `id` and `isAdmin` claims
    // as `String()` makes them, unless `set` rejects one of those values.
    ensures IsPage(req.pathname) && !IsPublicPath(req.pathname) && Present(req.token)
            && verify(req.token.value, secret).Some? ==>
      var payload := verify(req.token.value, secret).value;
      var userId := ToString(Get(payload, "id"));
      var isAdmin := ToString(Get(payload, "isAdmin"));
      d == if IsAdminPath(req.pathname) && !Truthy(Get(payload, "isAdmin")) then Redirect("/", None, false)
           else if HeaderValueAccepted(userId) && HeaderValueAccepted(isAdmin)
           then ForwardWithContext(NormalizeHeaderValue(userId), NormalizeHeaderValue(isAdmin))
           else Redirect("/auth/signin", None, true)
    // Identity is passed on only from a verified token.
    ensures d.ForwardWithContext? ==>
      IsPage(req.pathname) && !IsPublicPath(req.pathname) && Present(req.token)
      && verify(req.token.value, secret).Some?
    // Which kind of decision a request gets.
    ensures d.Preflight? <==> StartsWith(req.pathname, "/api") && req.verb == "OPTIONS"
    ensures d.ForwardWithCors? <==> StartsWith(req.pathname, "/api") && req.verb != "OPTIONS"
    ensures d.Redirect? ==> IsPage(req.pathname) && (d.target == "/products" <==> IsPublicPath(req.pathname))
    // The cookie is deleted only after a present token failed.
    ensures d.Redirect? && d.clearToken ==> Present(req.token) && IsPage(req.pathname)
  {
    var pathname := req.pathname;
    var frontendOrigin := Origin(req.origin, None);
    if StartsWith(pathname, "/api") then
      if req.verb == "OPTIONS" then Preflight(200, PreflightHeaders(frontendOrigin))
      else ForwardWithCors(ApiCorsHeaders(frontendOrigin))
    else if StartsWith(pathname, "/_next") || '.' in pathname || IsAlwaysAllowed(pathname) then
      Forward
    else
      AlwaysAllowedIsApi(pathname);
      PublicPathIsAuthPage(pathname);
      if IsPublicPath(pathname) then
        if Present(req.token) && (StartsWith(pathname, "/auth/signin") || StartsWith(pathname, "/auth/signup")) then
          Redirect("/products", None, false)
        else
          Forward
      else if !Present(req.token) then
        Redirect("/auth/signin", Some(pathname), false)
      else
        match verify(req.token.value, secret)
        case None => Redirect("/auth/signin", None, true)
        case Some(payload) =>
          if IsAdminPath(pathname) && !Truthy(Get(payload, "isAdmin")) then
            Redirect("/", None, false)
          else
            var userId := ToString(Get(payload, "id"));
            var isAdmin := ToString(Get(payload, "isAdmin"));
            if HeaderValueAccepted(userId) && HeaderValueAccepted(isAdmin) then
              ForwardWithContext(NormalizeHeaderValue(userId), NormalizeHeaderValue(isAdmin))
            else
              // `set` threw inside the `try`: handled like a failed verification
              Redirect("/auth/signin", None, true)
  }

  /** `middleware` as deployed: the module load fails without a secret
      (`None`), otherwise every request goes through the gate. */
  function HandleRequest(env: Option<string>, req: Request, verify: (string, string) -> Option<Claims>): (d: Option<Decision>)
    ensures d.None? <==> LoadSecret(env).None?
    ensures d.Some? ==> d.value == Gate(env.value, req, verify)
  {
    match LoadSecret(env)
    case None => None
    case Some(secret) => Some(Gate(secret, req, verify))
  }
}

=== FILE: Products.dfy ===
/** The product list and create handlers (src/app/api/products/route.ts):
    page/limit parsing and the pagination arithmetic every generated list
    route shares, and the required-field check and defaulting of a new
    product. Prices stay abstract: their float conversions are not modelled. */
module Products {
  import opened Wrappers
  import opened Strings
  import opened Js
  import opened Cors

  // -----------------------------------------------------------------------
  // GET: pagination

  /** `parseInt(searchParams.get(name) || fallback)` */
  function QueryNumber(param: Option<string>, fallback: string): (n: Number)
    ensures !Present(param) ==> n == ParseInt(fallback)
    ensures Present(param) ==> n == ParseInt(param.value)
  {
    ParseInt(if Present(param) then param.value else fallback)
  }

  /** The page and the page size asked for; 1 and 10 when not given. */
  function PageParams(pageParam: Option<string>, limitParam: Option<string>): (r: (Number, Number))
    ensures !Present(pageParam) ==> r.0 == Int(1)
    ensures !Present(limitParam) ==> r.1 == Int(10)
    ensures Present(pageParam) ==> r.0 == ParseInt(pageParam.value)
    ensures Present(limitParam) ==> r.1 == ParseInt(limitParam.value)
  {
    assert ParseInt("1") == Int(1) by {
      assert IntToString(1) == "1";
      ParseIntOfIntToString(1);
    }
    assert ParseInt("10") == Int(10) by {
      assert NatToString(10) == NatToString(1) + [DecimalDigit(0)];
      assert IntToString(10) == "10";
      ParseIntOfIntToString(10);
    }
    (QueryNumber(pageParam, "1"), QueryNumber(limitParam, "10"))
  }

  /** `(page - 1) * limit`: NaN when either is. */
  function Skip(page: Number, limit: Number): (skip: Number)
    requires page != Infinity && limit != Infinity
    ensures skip.Int? <==> page.Int? && limit.Int?
    ensures skip.Int? ==> skip.v == (page.v - 1) * limit.v
  {
    if page.Int? && limit.Int? then Int((page.v - 1) * limit.v) else NaN
  }

  /** `Math.ceil(a / b)` for integers, `b` not zero. */
  function CeilDiv(a: int, b: int): (q: int)
    requires b != 0
  {
    if b > 0 then -((-a) / b) else -(a / (-b))
  }

  /** For a positive divisor the ceiling is the least `q` with `q * b >= a`. */
  lemma CeilDivIsLeastCover(a: int, b: int)
    requires b > 0
    ensures CeilDiv(a, b) * b >= a
    ensures (CeilDiv(a, b) - 1) * b < a
  {
  }

  /** For a negative divisor the ceiling is the least `q` with `q * b <= a`. */
  lemma CeilDivNegative(a: int, b: int)
    requires b < 0
    ensures CeilDiv(a, b) * b <= a
    ensures (CeilDiv(a, b) - 1) * b > a
  {
  }

  /** `Math.ceil(total / limit)`: for a positive page size, the fewest pages
      of that size holding `total` rows. A zero page size gives Infinity, or
      NaN when there are no rows; a NaN page size gives NaN. */
  function TotalPages(total: nat, limit: Number): (pages: Number)
    requires limit != Infinity
    ensures limit.Int? && limit.v > 0 ==>
      pages.Int? && pages.v >= 0 && pages.v * limit.v >= total && (pages.v - 1) * limit.v < total
    ensures limit.Int? && limit.v < 0 ==>
      pages.Int? && pages.v * limit.v <= total && (pages.v - 1) * limit.v > total
    ensures limit == Int(0) ==> pages == (if total == 0 then NaN else Infinity)
    ensures limit.NaN? ==> pages.NaN?
  {
    match limit
    case NaN => NaN
    case Int(l) =>
      if l == 0 then (if total == 0 then NaN else Infinity)
      else
        assert l > 0 ==> CeilDiv(total, l) * l >= total && (CeilDiv(total, l) - 1) * l < total by {
          if l > 0 { CeilDivIsLeastCover(total, l); }
        }
        assert l < 0 ==> CeilDiv(total, l) * l <= total && (CeilDiv(total, l) - 1) * l > total by {
          if l < 0 { CeilDivNegative(total, l); }
        }
        Int(CeilDiv(total, l))
  }

  /** With a positive page size, every row `i` of `total` lies in the window
      `[skip, skip + limit)` of exactly one page, and that page is among the
      `totalPages` the answer announces. */
  lemma RowOnExactlyOnePage(total: nat, limit: nat, i: nat)
    requires limit >= 1 && i < total
    ensures var p := i / limit + 1;
      && 1 <= p <= TotalPages(total, Int(limit)).v
      && Skip(Int(p), Int(limit)).v <= i < Skip(Int(p), Int(limit)).v + limit
    ensures forall p: int :: Skip(Int(p), Int(limit)).v <= i < Skip(Int(p), Int(limit)).v + limit ==>
      p == i / limit + 1
  {
    var pages := TotalPages(total, Int(limit)).v;
    PageOfRow(total, limit, i, pages);
    forall p: int | Skip(Int(p), Int(limit)).v <= i < Skip(Int(p), Int(limit)).v + limit
      ensures p == i / limit + 1
    {
      WindowUnique(p - 1, i / limit, limit, i);
    }
  }

  /** Row `i` lies in the window of page `i / limit + 1`, which is within
      any page count that covers the rows. */
  lemma PageOfRow(total: nat, limit: nat, i: nat, pages: int)
    requires limit >= 1 && i < total && pages * limit >= total
    ensures 1 <= i / limit + 1 <= pages
    ensures (i / limit) * limit <= i < (i / limit) * limit + limit
  {
    var q := i / limit;
    WindowOfQuotient(i, limit);
    if pages < q {
      MulStep(pages, q, limit);
    }
  }

  /** Row `i` lies in the window of its quotient. */
  lemma WindowOfQuotient(i: nat, c: nat)
    requires c >= 1
    ensures (i / c) * c <= i < (i / c) * c + c
  {
  }

  /** Windows `[a * c, a * c + c)` of a positive size are disjoint. */
  lemma WindowUnique(a: int, b: int, c: nat, i: int)
    requires c >= 1
    requires a * c <= i < a * c + c && b * c <= i < b * c + c
    ensures a == b
  {
    if a < b {
      MulStep(a, b, c);
    } else if b < a {
      MulStep(b, a, c);
    }
  }

  lemma MulStep(a: int, b: int, c: nat)
    requires a < b
    ensures a * c + c <= b * c
  {
    var d := b - a - 1;
    assert d >= 0;
    assert d * c >= 0;
    assert b * c == (a + 1 + d) * c == a * c + c + d * c;
  }

  /** A Prisma decimal price, kept abstract by its text. */
  datatype Price = Price(text: string)

  /** A stored product: its price (`None` for a null price) and every other
      column. */
  datatype Product = Product(price: Option<Price>, columns: map<string, JsValue>)

  /** A price in the list answer: `Number(price)`, or 0 for a falsy price. */
  datatype ListedPrice = Zero | NumberOf(price: Price)

  datatype ListedProduct = ListedProduct(price: ListedPrice, columns: map<string, JsValue>)

  /** `price: item.price ? Number(item.price) : 0` */
  function FormatItem(item: Product): (listed: ListedProduct)
    ensures listed.columns == item.columns
    ensures listed.price.Zero? <==> item.price.None?
    ensures item.price.Some? ==> listed.price == NumberOf(item.price.value)
  {
    ListedProduct(if item.price.Some? then NumberOf(item.price.value) else Zero, item.columns)
  }

  function FormatItems(items: seq<Product>): (listed: seq<ListedProduct>)
    ensures |listed| == |items|
    ensures forall i :: 0 <= i < |items| ==> listed[i] == FormatItem(items[i])
  {
    if items == [] then [] else [FormatItem(items[0])] + FormatItems(items[1..])
  }

  datatype ListBody =
    | Page(data: seq<ListedProduct>, total: nat, page: Number, totalPages: Number)
    | ListError(error: string)

  datatype ListResponse = ListResponse(status: int, body: ListBody, headers: Headers)

  /** `GET(request)`. `fetch(skip, take)` stands for the store's `findMany`
      (ordered by name, with the category) together with `count`; it throws
      when either does, for instance on a NaN argument. */
  function ListProducts(
    pageParam: Option<string>, limitParam: Option<string>, origin: Option<string>,
    fetch: (Number, Number) -> Result<(seq<Product>, nat)>): (r: ListResponse)
    ensures r.headers == CredentialHeaders(Origin(origin, None))
    ensures r.status == 200 <==> r.body.Page?
    ensures r.status != 200 ==> r.status == 500 && r.body == ListError("Failed to fetch products")
    ensures r.body.Page? ==>
      var (page, limit) := PageParams(pageParam, limitParam);
      && fetch(Skip(page, limit), limit).Ok?
      && var (items, total) := fetch(Skip(page, limit), limit).value;
      && r.body.data == FormatItems(items) && r.body.total == total
      && r.body.page == page && r.body.totalPages == TotalPages(total, limit)
  {
    var (page, limit) := PageParams(pageParam, limitParam);
    var headers := CredentialHeaders(Origin(origin, None));
    match fetch(Skip(page, limit), limit)
    case Thrown => ListResponse(500, ListError("Failed to fetch products"), headers)
    case Ok((items, total)) =>
      ListResponse(200, Page(FormatItems(items), total, page, TotalPages(total, limit)), headers)
  }

  // -----------------------------------------------------------------------
  // POST: validation and defaults

  const RequiredFields: seq<string> := ["name", "price", "stock_quantity", "category_id", "seller_id"]

  /** `sub` is `s` with some elements left out, the rest in order. */
  predicate IsSubsequence(sub: seq<string>, s: seq<string>)
    decreases |s|
  {
    if sub == [] then true
    else if s == [] then false
    else if sub[0] == s[0] then IsSubsequence(sub[1..], s[1..])
    else IsSubsequence(sub, s[1..])
  }

  /** `fields.filter(field => !(field in data))` */
  function MissingFields(fields: seq<string>, data: map<string, JsValue>): (missing: seq<string>)
    ensures forall f :: f in missing <==> f in fields && f !in data
    ensures IsSubsequence(missing, fields)
  {
    if fields == [] then []
    else if fields[0] in data then MissingFields(fields[1..], data)
    else [fields[0]] + MissingFields(fields[1..], data)
  }

  /** The product handed to the store. `price` is the raw value:
      `parseFloat(price) || 0` is not modelled. */
  datatype ProductData = ProductData(
    name: string,
    description: Option<string>,
    price: JsValue,
    stockQuantity: int,
    inStock: bool,
    categoryId: string,
    sellerId: string,
    imageUrl: Option<string>)

  /** `value ? String(value) : null` */
  function StringOrNull(v: JsValue): (r: Option<string>)
    ensures r.None? <==> !Truthy(v)
    ensures r.Some? ==> r.value == ToString(v)
  {
    if Truthy(v) then Some(ToString(v)) else None
  }

  /** `parseInt(value) || 0`: the value's text read as an integer, or 0
      when no number can be read from it. */
  function IntOrZero(v: JsValue): (n: int)
    ensures ParseInt(ToString(v)).Int? ==> n == ParseInt(ToString(v)).v
    ensures ParseInt(ToString(v)).NaN? ==> n == 0
    ensures v.Num? ==> n == v.n
  {
    assert v.Num? ==> ParseInt(ToString(v)) == Int(v.n) by {
      if v.Num? { ParseIntOfIntToString(v.n); }
    }
    match ParseInt(ToString(v))
    case Int(k) => k
    case _ => 0
  }

  /** A stock quantity sent as text is read up to its first non-digit,
      after any leading white space: `" 7kg"` and `" 7x"` give 7, `"12"`
      gives 12. */
  lemma IntOrZeroReadsLeadingNumber(ws: string, m: nat, rest: string)
    requires forall i :: 0 <= i < |ws| ==> IsWhiteSpace(ws[i])
    requires rest == [] || !('0' <= rest[0] <= '9' || (m == 0 && (rest[0] == 'x' || rest[0] == 'X')))
    ensures IntOrZero(Str(ws + NatToString(m) + rest)) == m
  {
    ParseIntLeadingDigits(ws, m, rest);
  }

  /** A stock quantity sent as text with no number at its start, such as
      `"many"`, `"-"`, `"- 5"` or `"--5"`, becomes 0. */
  lemma IntOrZeroOfNonNumericText(ws: string, sg: Sign, rest: string)
    requires forall i :: 0 <= i < |ws| ==> IsWhiteSpace(ws[i])
    requires rest == [] || !('0' <= rest[0] <= '9')
    requires sg == NoSign ==> rest == [] || !(rest[0] == '-' || rest[0] == '+' || IsWhiteSpace(rest[0]))
    ensures IntOrZero(Str(ws + SignText(sg) + rest)) == 0
  {
    ParseIntNoDigits(ws, sg, rest);
  }

  /** The product data built from a body that has every required field. */
  function BuildProductData(data: map<string, JsValue>): (p: ProductData)
    ensures "in_stock" !in data ==> p.inStock
    ensures p.inStock <==> Get(data, "in_stock") == Undefined || Truthy(Get(data, "in_stock"))
    ensures p.description.None? <==> !Truthy(Get(data, "description"))
    ensures p.imageUrl.None? <==> !Truthy(Get(data, "image_url"))
    ensures p.name == ToString(Get(data, "name"))
    ensures p.description == StringOrNull(Get(data, "description"))
    ensures p.imageUrl == StringOrNull(Get(data, "image_url"))
    ensures p.description.Some? ==> p.description.value == ToString(Get(data, "description"))
    ensures p.imageUrl.Some? ==> p.imageUrl.value == ToString(Get(data, "image_url"))
    ensures p.categoryId == ToString(Get(data, "category_id"))
    ensures p.sellerId == ToString(Get(data, "seller_id"))
    ensures p.price == Get(data, "price")
    ensures p.stockQuantity == IntOrZero(Get(data, "stock_quantity"))
    ensures ParseInt(ToString(Get(data, "stock_quantity"))).NaN? ==> p.stockQuantity == 0
    ensures ParseInt(ToString(Get(data, "stock_quantity"))).Int? ==>
      p.stockQuantity == ParseInt(ToString(Get(data, "stock_quantity"))).v
    ensures Get(data, "stock_quantity").Num? ==> p.stockQuantity == Get(data, "stock_quantity").n
  {
    ProductData(
      ToString(Get(data, "name")),
      StringOrNull(Get(data, "description")),
      Get(data, "price"),
      IntOrZero(Get(data, "stock_quantity")),
      if Get(data, "in_stock") != Undefined then Truthy(Get(data, "in_stock")) else true,
      ToString(Get(data, "category_id")),
      ToString(Get(data, "seller_id")),
      StringOrNull(Get(data, "image_url")))
  }

  datatype CreateBody =
    | Created(item: Product)
    | MissingRequired(error: string, missingFields: seq<string>, receivedData: map<string, JsValue>)
    | CreateError(error: string)

  datatype CreateResponse = CreateResponse(status: int, body: CreateBody, headers: Headers)

  /** `POST(request)`. `create` stands for the store's `product.create`. */
  function CreateProduct(
    body: JsonBody, origin: Option<string>,
    create: ProductData -> Result<Product>): (r: CreateResponse)
    // Anything but an object body throws (`json()` or the `in` test).
    ensures !body.Object? ==> r.status == 500 && r.body == CreateError("Failed to create product")
    // A missing required field: 400 listing them, and nothing is created.
    ensures body.Object? && MissingFields(RequiredFields, body.fields) != [] ==>
      r == CreateResponse(400, MissingRequired("Missing required fields",
                                               MissingFields(RequiredFields, body.fields), body.fields), map[])
    ensures r.status == 201 <==>
      body.Object? && MissingFields(RequiredFields, body.fields) == []
      && create(BuildProductData(body.fields)).Ok?
    ensures r.status == 201 ==> r.body == Created(create(BuildProductData(body.fields)).value)
    // A store that throws on `create`.
    ensures body.Object? && MissingFields(RequiredFields, body.fields) == []
            && create(BuildProductData(body.fields)).Thrown? ==>
      r == CreateResponse(500, CreateError("Failed to create product"), CredentialHeaders(Origin(origin, None)))
    ensures r.status != 400 ==> r.headers == CredentialHeaders(Origin(origin, None))
  {
    var headers := CredentialHeaders(Origin(origin, None));
    match body
    case Object(data) =>
      var missing := MissingFields(RequiredFields, data);
      if |missing| > 0 then
        CreateResponse(400, MissingRequired("Missing required fields", missing, data), map[])
      else
        (match create(BuildProductData(data))
         case Thrown => CreateResponse(500, CreateError("Failed to create product"), headers)
         case Ok(item) => CreateResponse(201, Created(item), headers))
    case _ => CreateResponse(500, CreateError("Failed to create product"), headers)
  }
}

=== FILE: Session.dfy ===
/** The session check (`GET` in src/app/api/auth/session/route.ts): find the
    `token` cookie in the raw `cookie` header, verify it, look its user up,
    and answer 200 with the user or with `user: null`. */
module Session {
  import opened Wrappers
  import opened Strings
  import opened Js
  import opened Accounts
  import opened Cors

  const InvalidSession := "Invalid or expired session"
  const TokenPrefix := "token="

  /** `request.headers.get('cookie') || ''` */
  function CookieText(header: Option<string>): (text: string)
    ensures Present(header) ==> text == header.value
    ensures !Present(header) ==> text == ""
  {
    if Present(header) then header.value else ""
  }

  /** The position `rows.find(row => row.startsWith(prefix))` stops at:
      the first row with the prefix, or `|rows|` when there is none. */
  function FirstWithPrefix(rows: seq<string>, prefix: string): (k: nat)
    ensures k <= |rows|
    ensures k < |rows| ==> StartsWith(rows[k], prefix)
    ensures forall j :: 0 <= j < k ==> !StartsWith(rows[j], prefix)
  {
    if rows == [] then 0
    else if StartsWith(rows[0], prefix) then 0
    else 1 + FirstWithPrefix(rows[1..], prefix)
  }

  /** The cookie header's `"; "`-separated segments. */
  function Segments(header: Option<string>): (rows: seq<string>)
    ensures |rows| >= 1
  {
    Split(CookieText(header), "; ")
  }

  /** `cookies.split('; ').find(row => row.startsWith('token='))?.split('=')[1]`:
      in the first segment that starts with `token=`, the text between its
      first and second `=` (up to its end when there is no second `=`). */
  function CookieToken(header: Option<string>): (token: Option<string>)
    ensures token.Some? <==> exists i :: 0 <= i < |Segments(header)| && StartsWith(Segments(header)[i], TokenPrefix)
    ensures token.Some? ==>
      var row := Segments(header)[FirstWithPrefix(Segments(header), TokenPrefix)];
      token.value == Before(row[|TokenPrefix|..], '=') && '=' !in token.value
  {
    var rows := Segments(header);
    var k := FirstWithPrefix(rows, TokenPrefix);
    if k == |rows| then None
    else
      var row := rows[k];
      assert row == "token" + "=" + row[|TokenPrefix|..];
      SplitAfterPart("token", "=", row[|TokenPrefix|..]);
      SplitHeadIsBefore(row[|TokenPrefix|..], '=');
      Some(Split(row, "=")[1])
  }

  /** A header whose first cookie is the token gives that token back. */
  lemma CookieTokenFirst(t: string, rest: string)
    requires ';' !in t && '=' !in t
    ensures CookieToken(Some("token=" + t + "; " + rest)) == Some(t)
  {
    var a := "token=" + t;
    var h := a + "; " + rest;
    assert CookieText(Some(h)) == h;
    SplitAfterPart(a, "; ", rest);
    assert Segments(Some(h))[0] == a;
    assert FirstWithPrefix(Segments(Some(h)), TokenPrefix) == 0;
    assert a == "token" + "=" + t;
    SplitAfterPart("token", "=", t);
    SplitWhole(t, "=");
    assert Split(a, "=") == ["token", t];
  }

  /** A header whose only cookie is the token gives that token back; an
      empty value is found but counts as no token. */
  lemma CookieTokenOnly(t: string)
    requires ';' !in t && '=' !in t
    ensures CookieToken(Some("token=" + t)) == Some(t)
    ensures Present(CookieToken(Some("token=" + t))) <==> t != ""
  {
    var a := "token=" + t;
    assert CookieText(Some(a)) == a;
    SplitWhole(a, "; ");
    assert FirstWithPrefix(Segments(Some(a)), TokenPrefix) == 0;
    assert a == "token" + "=" + t;
    SplitAfterPart("token", "=", t);
    SplitWhole(t, "=");
    assert Split(a, "=") == ["token", t];
  }

  /** A token after another cookie, as in `theme=dark; token=T`, is found
      too. */
  lemma CookieTokenAfter(c: string, t: string)
    requires ';' !in c && !StartsWith(c, TokenPrefix)
    requires ';' !in t && '=' !in t
    ensures CookieToken(Some(c + "; token=" + t)) == Some(t)
  {
    var a := "token=" + t;
    var h := c + "; " + a;
    assert c + "; token=" + t == h;
    assert CookieText(Some(h)) == h;
    SplitAfterPart(c, "; ", a);
    SplitWhole(a, "; ");
    assert Segments(Some(h)) == [c, a];
    assert FirstWithPrefix(Segments(Some(h)), TokenPrefix) == 1;
    assert a == "token" + "=" + t;
    SplitAfterPart("token", "=", t);
    SplitWhole(t, "=");
    assert Split(a, "=") == ["token", t];
  }

  /** The user as the session answer shows it: every field but the password
      hash, plus the admin flag. */
  datatype SessionUser = SessionUser(
    id: string,
    email: string,
    username: string,
    isActive: bool,
    administrators: Option<Administrator>,
    isAdmin: bool)

  /** `{ ...userWithoutPassword, isAdmin: !!user.administrators }` */
  function View(u: User): (v: SessionUser)
    ensures v.isAdmin == IsAdmin(u)
  {
    SessionUser(u.id, u.email, u.username, u.isActive, u.administrators, IsAdmin(u))
  }

  /** The view drops the password hash and nothing else: two users have the
      same view exactly when they differ at most in their hash. */
  lemma ViewDropsOnlyPasswordHash(u: User, w: User)
    ensures View(u) == View(w) <==> u.(passwordHash := "") == w.(passwordHash := "")
  {
  }

  /** The `user` of the answer: `null` (with an error message or without),
      or the signed-in user. */
  datatype SessionBody = Anonymous(error: Option<string>) | SignedIn(user: SessionUser)

  datatype SessionResponse = SessionResponse(status: int, body: SessionBody, headers: Headers)

  /** `GET(request)` once the module has loaded with `secret`. `verify`
      stands for `jwt.verify` (the decoded payload, or `None` when it
      throws) and `findById` for the store lookup by the `userId` claim. */
  function GetSession(
    secret: string, cookieHeader: Option<string>, origin: Option<string>,
    verify: (string, string) -> Option<Claims>,
    findById: JsValue -> Lookup): (r: SessionResponse)
    // Never a 401: every answer of the handler is a 200.
    ensures r.status == 200
    // No token (no header, no `token=` segment, or an empty value).
    ensures !Present(CookieToken(cookieHeader)) ==>
      r == SessionResponse(200, Anonymous(None), CredentialHeaders(Origin(origin, None)))
    // A token that fails verification.
    ensures Present(CookieToken(cookieHeader)) && verify(CookieToken(cookieHeader).value, secret).None? ==>
      r == SessionResponse(200, Anonymous(Some(InvalidSession)), CredentialHeaders(Origin(origin, None)))
    // A verified token whose user is gone: no session (and, as written, no
    // CORS headers).
    ensures Present(CookieToken(cookieHeader)) && verify(CookieToken(cookieHeader).value, secret).Some?
            && findById(Get(verify(CookieToken(cookieHeader).value, secret).value, "userId")).NotFound? ==>
      r == SessionResponse(200, Anonymous(None), map[])
    // A verified token whose lookup throws: the same answer as a token that
    // fails verification, since both happen inside one `try`.
    ensures Present(CookieToken(cookieHeader)) && verify(CookieToken(cookieHeader).value, secret).Some?
            && findById(Get(verify(CookieToken(cookieHeader).value, secret).value, "userId")).StoreFailed? ==>
      r == SessionResponse(200, Anonymous(Some(InvalidSession)), CredentialHeaders(Origin(origin, None)))
    // A session only from a verified token whose `userId` names a stored
    // user, shown without its hash and with the admin flag derived anew.
    ensures r.body.SignedIn? <==>
      && Present(CookieToken(cookieHeader))
      && verify(CookieToken(cookieHeader).value, secret).Some?
      && findById(Get(verify(CookieToken(cookieHeader).value, secret).value, "userId")).Found?
    ensures r.body.SignedIn? ==>
      var u := findById(Get(verify(CookieToken(cookieHeader).value, secret).value, "userId")).user;
      r.body.user == View(u) && r.body.user.isAdmin == IsAdmin(u)
      && r.headers == CredentialHeaders(Origin(origin, None))
  {
    var cors := CredentialHeaders(Origin(origin, None));
    var token := CookieToken(cookieHeader);
    if !Present(token) then SessionResponse(200, Anonymous(None), cors)
    else
      match verify(token.value, secret)
      case None => SessionResponse(200, Anonymous(Some(InvalidSession)), cors)
      case Some(decoded) =>
        match findById(Get(decoded, "userId"))
        // the lookup runs inside the same `try` as the verification
        case StoreFailed => SessionResponse(200, Anonymous(Some(InvalidSession)), cors)
        case NotFound => SessionResponse(200, Anonymous(None), map[])
        case Found(u) => SessionResponse(200, SignedIn(View(u)), cors)
  }

  /** `GET` as deployed: without a secret the module does not load. */
  function HandleSession(
    env: Option<string>, cookieHeader: Option<string>, origin: Option<string>,
    verify: (string, string) -> Option<Claims>,
    findById: JsValue -> Lookup): (r: Option<SessionResponse>)
    ensures r.None? <==> LoadSecret(env).None?
    ensures r.Some? ==> r.value == GetSession(env.value, cookieHeader, origin, verify, findById)
  {
    match LoadSecret(env)
    case None => None
    case Some(secret) => Some(GetSession(secret, cookieHeader, origin, verify, findById))
  }
}

=== FILE: SignIn.dfy ===
/** The sign-in handler (`POST` in src/app/api/auth/signin/route.ts): an
    ordered chain of guards from the request and the answers of the store,
    the password check and the token signer to a status, a message and, on
    success, the session cookie. */
module SignIn {
  import opened Wrappers
  import opened Strings
  import opened Js
  import opened Accounts

  const BadContentType := "Content-Type must be application/json"
  const MissingCredentials := "Email and password are required"
  const InvalidCredentials := "Invalid email or password"
  const LoginError := "An error occurred during login"
  const InternalError := "Internal server error"
  const LoginSuccessful := "Login successful"

  /** The user as the success body shows it. */
  datatype PublicUser = PublicUser(id: string, email: string, username: string, isAdmin: bool)

  datatype SignInBody = Message(message: string) | LoggedIn(message: string, user: PublicUser)

  /** The attributes of a cookie set on the response. */
  datatype Cookie = Cookie(
    name: string,
    value: string,
    httpOnly: bool,
    secure: bool,
    sameSite: string,
    maxAge: int,
    path: string)

  datatype SignInResponse = SignInResponse(status: int, body: SignInBody, cookie: Option<Cookie>)

  /** The claims signed into a new token: the user's id under `userId`, the
      email, and the admin flag. */
  function IssuedClaims(u: User): (claims: Claims)
    ensures claims.Keys == {"userId", "email", "isAdmin"}
    ensures claims["userId"] == Str(u.id) && claims["email"] == Str(u.email)
    ensures claims["isAdmin"] == Bool(IsAdmin(u))
  {
    map["userId" := Str(u.id), "email" := Str(u.email), "isAdmin" := Bool(IsAdmin(u))]
  }

  /** The session cookie: `token`, HTTP-only, secure in production only,
      same-site strict, for one day, on the whole site. */
  function SessionCookie(token: string, nodeEnv: Option<string>): Cookie {
    Cookie("token", token, true, nodeEnv == Some("production"), "strict", OneDay, "/")
  }

  function Reply(status: int, message: string): SignInResponse {
    SignInResponse(status, Message(message), None)
  }

  /** The request declares a JSON body: a non-empty `content-type` header
      containing `application/json`. */
  predicate JsonContentType(contentType: Option<string>) {
    Present(contentType) && Contains(contentType.value, "application/json")
  }

  /** `POST(request)` once the module has loaded with `secret`.
      `findByEmail` stands for the store lookup (with administrators
      included), `compare` for `bcrypt.compare` and `sign` for `jwt.sign`
      (claims, secret, lifetime in seconds). */
  function SignIn(
    secret: string, nodeEnv: Option<string>, contentType: Option<string>, body: JsonBody,
    findByEmail: JsValue -> Lookup,
    compare: (JsValue, string) -> Result<bool>,
    sign: (Claims, string, nat) -> Result<string>): (r: SignInResponse)
    // The content type is checked before the body is read.
    ensures !JsonContentType(contentType) ==> r == Reply(400, BadContentType)
    // A body that is not JSON, or is `null`, ends in the outer handler.
    ensures JsonContentType(contentType) && (body.Malformed? || body.JsonNull?) ==> r == Reply(500, InternalError)
    // Missing credentials are refused before any lookup.
    ensures JsonContentType(contentType) && !body.Malformed? && !body.JsonNull?
            && (!Truthy(Field(body, "email")) || !Truthy(Field(body, "password"))) ==>
      r == Reply(400, MissingCredentials)
    // Every 401 is the same response, and it comes from exactly the unknown
    // email and the wrong password.
    ensures r.status == 401 ==> r == Reply(401, InvalidCredentials)
    ensures r.status == 401 <==>
      && JsonContentType(contentType) && !body.Malformed? && !body.JsonNull?
      && Truthy(Field(body, "email")) && Truthy(Field(body, "password"))
      && var found := findByEmail(Field(body, "email"));
      && (found.NotFound? || (found.Found? && compare(Field(body, "password"), found.user.passwordHash) == Ok(false)))
    // A password check that throws is a 500, never a 401.
    ensures JsonContentType(contentType) && !body.Malformed? && !body.JsonNull?
            && Truthy(Field(body, "email")) && Truthy(Field(body, "password"))
            && findByEmail(Field(body, "email")).Found?
            && compare(Field(body, "password"), findByEmail(Field(body, "email")).user.passwordHash).Thrown? ==>
      r == Reply(500, LoginError)
    // A store that throws on the lookup ends in the outer handler.
    ensures JsonContentType(contentType) && !body.Malformed? && !body.JsonNull?
            && Truthy(Field(body, "email")) && Truthy(Field(body, "password"))
            && findByEmail(Field(body, "email")).StoreFailed? ==>
      r == Reply(500, InternalError)
    // A signer that throws after the password matched.
    ensures JsonContentType(contentType) && !body.Malformed? && !body.JsonNull?
            && Truthy(Field(body, "email")) && Truthy(Field(body, "password"))
            && findByEmail(Field(body, "email")).Found?
            && compare(Field(body, "password"), findByEmail(Field(body, "email")).user.passwordHash) == Ok(true)
            && sign(IssuedClaims(findByEmail(Field(body, "email")).user), secret, OneDay).Thrown? ==>
      r == Reply(500, LoginError)
    // A 400 comes only from the content type or the missing credentials.
    ensures r.status == 400 ==>
      || !JsonContentType(contentType)
      || (!body.Malformed? && !body.JsonNull?
          && (!Truthy(Field(body, "email")) || !Truthy(Field(body, "password"))))
    ensures r.status in {200, 400, 401, 500}
    // Every request that passes the guards, matches the password and gets a
    // signed token is a 200.
    ensures JsonContentType(contentType) && !body.Malformed? && !body.JsonNull?
            && Truthy(Field(body, "email")) && Truthy(Field(body, "password"))
            && findByEmail(Field(body, "email")).Found?
            && compare(Field(body, "password"), findByEmail(Field(body, "email")).user.passwordHash) == Ok(true)
            && sign(IssuedClaims(findByEmail(Field(body, "email")).user), secret, OneDay).Ok? ==>
      r.status == 200
    // Success: the found user's password matched and a token was signed
    // with that user's claims for one day; the cookie carries it, and the
    // body's admin flag is the one in the claims.
    ensures r.cookie.Some? <==> r.status == 200
    ensures r.status == 200 ==>
      && findByEmail(Field(body, "email")).Found?
      && var u := findByEmail(Field(body, "email")).user;
      && compare(Field(body, "password"), u.passwordHash) == Ok(true)
      && sign(IssuedClaims(u), secret, OneDay).Ok?
      && r.body == LoggedIn(LoginSuccessful, PublicUser(u.id, u.email, u.username, IsAdmin(u)))
      && Bool(r.body.user.isAdmin) == IssuedClaims(u)["isAdmin"]
      && r.cookie == Some(SessionCookie(sign(IssuedClaims(u), secret, OneDay).value, nodeEnv))
    ensures r.status == 200 ==>
      var c := r.cookie.value;
      c.name == "token" && c.httpOnly && c.sameSite == "strict" && c.maxAge == 86400 && c.path == "/"
      && (c.secure <==> nodeEnv == Some("production"))
  {
    if !JsonContentType(contentType) then Reply(400, BadContentType)
    else if body.Malformed? || body.JsonNull? then Reply(500, InternalError)
    else
      var email := Field(body, "email");
      var password := Field(body, "password");
      if !Truthy(email) || !Truthy(password) then Reply(400, MissingCredentials)
      else
        match findByEmail(email)
        case StoreFailed => Reply(500, InternalError)
        case NotFound => Reply(401, InvalidCredentials)
        case Found(u) =>
          match compare(password, u.passwordHash)
          case Thrown => Reply(500, LoginError)
          case Ok(valid) =>
            if !valid then Reply(401, InvalidCredentials)
            else
              match sign(IssuedClaims(u), secret, OneDay)
              case Thrown => Reply(500, LoginError)
              case Ok(token) =>
                var isAdmin := IsAdmin(u);
                SignInResponse(
                  200,
                  LoggedIn(LoginSuccessful, PublicUser(u.id, u.email, u.username, isAdmin)),
                  Some(SessionCookie(token, nodeEnv)))
  }

  /** Enumeration resistance: for the same request, an email the store does
      not know and a known email with the wrong password get the very same
      response. */
  lemma UnknownEmailLooksLikeWrongPassword(
    secret: string, nodeEnv: Option<string>, contentType: Option<string>, body: JsonBody,
    unknown: JsValue -> Lookup, known: JsValue -> Lookup, u: User,
    compare: (JsValue, string) -> Result<bool>,
    sign: (Claims, string, nat) -> Result<string>)
    requires !body.Malformed? && !body.JsonNull?
    requires unknown(Field(body, "email")) == NotFound
    requires known(Field(body, "email")) == Found(u)
    requires compare(Field(body, "password"), u.passwordHash) == Ok(false)
    ensures SignIn(secret, nodeEnv, contentType, body, unknown, compare, sign)
         == SignIn(secret, nodeEnv, contentType, body, known, compare, sign)
  {
  }

  /** `POST` as deployed: without a secret the module does not load. */
  function HandleSignIn(
    env: Option<string>, nodeEnv: Option<string>, contentType: Option<string>, body: JsonBody,
    findByEmail: JsValue -> Lookup,
    compare: (JsValue, string) -> Result<bool>,
    sign: (Claims, string, nat) -> Result<string>): (r: Option<SignInResponse>)
    ensures r.None? <==> LoadSecret(env).None?
    ensures r.Some? ==> r.value == SignIn(env.value, nodeEnv, contentType, body, findByEmail, compare, sign)
  {
    match LoadSecret(env)
    case None => None
    case Some(secret) => Some(SignIn(secret, nodeEnv, contentType, body, findByEmail, compare, sign))
  }
}

=== FILE: Strings.dfy ===
/** The few JavaScript string operations the request-handling code relies on:
    `startsWith`, `includes` and `split` with a string separator. */
module Strings {

  /** `s.startsWith(prefix)` */
  predicate StartsWith(s: string, prefix: string) {
    prefix <= s
  }

  /** `s.includes(sub)`: `sub` occurs somewhere in `s`. */
  predicate Contains(s: string, sub: string)
    decreases |s|
  {
    StartsWith(s, sub) || (s != [] && Contains(s[1..], sub))
  }

  lemma {:induction false} ContainsAt(s: string, sub: string)
    ensures Contains(s, sub) <==> exists i :: 0 <= i <= |s| && StartsWith(s[i..], sub)
    decreases |s|
  {
    assert s[0..] == s;
    if s != [] {
      ContainsAt(s[1..], sub);
      if exists i :: 0 <= i <= |s| && StartsWith(s[i..], sub) {
        var i :| 0 <= i <= |s| && StartsWith(s[i..], sub);
        if i > 0 {
          assert s[1..][i - 1..] == s[i..];
        }
      }
      if Contains(s[1..], sub) {
        var i :| 0 <= i <= |s[1..]| && StartsWith(s[1..][i..], sub);
        assert s[1..][i..] == s[i + 1..];
      }
    } else {
      if exists i :: 0 <= i <= |s| && StartsWith(s[i..], sub) {
        var i :| 0 <= i <= |s| && StartsWith(s[i..], sub);
        assert i == 0;
      }
    }
  }

  /** `s.split(sep)` for a non-empty separator: the text between successive
      non-overlapping occurrences of `sep`, scanned from the left. The result
      always has at least one element (`"".split(sep)` is `[""]`). */
  function Split(s: string, sep: string): (parts: seq<string>)
    requires sep != []
    ensures |parts| >= 1
  {
    SplitFrom(s, sep, [])
  }

  /** Splitting `s` when `cur` has already been read into the current part. */
  function SplitFrom(s: string, sep: string, cur: string): (parts: seq<string>)
    requires sep != []
    ensures |parts| >= 1
    ensures StartsWith(parts[0], cur)
    decreases |s|
  {
    if StartsWith(s, sep) then [cur] + SplitFrom(s[|sep|..], sep, [])
    else if s == [] then [cur]
    else SplitFrom(s[1..], sep, cur + [s[0]])
  }

  /** `parts.join(sep)` */
  function Join(parts: seq<string>, sep: string): string
    requires |parts| >= 1
  {
    if |parts| == 1 then parts[0] else parts[0] + sep + Join(parts[1..], sep)
  }

  /** Splitting loses nothing: joining the parts with the separator gives the
      string back. */
  lemma {:induction false} JoinSplit(s: string, sep: string)
    requires sep != []
    ensures Join(Split(s, sep), sep) == s
  {
    JoinSplitFrom(s, sep, []);
  }

  lemma {:induction false} JoinSplitFrom(s: string, sep: string, cur: string)
    requires sep != []
    ensures Join(SplitFrom(s, sep, cur), sep) == cur + s
    decreases |s|
  {
    if StartsWith(s, sep) {
      var rest := SplitFrom(s[|sep|..], sep, []);
      JoinSplitFrom(s[|sep|..], sep, []);
      assert ([cur] + rest)[1..] == rest;
      assert s == sep + s[|sep|..];
    } else if s == [] {
    } else {
      JoinSplitFrom(s[1..], sep, cur + [s[0]]);
      assert cur + [s[0]] + s[1..] == cur + s;
    }
  }

  /** The text of `s` before the first `c` (all of `s` when there is none). */
  function Before(s: string, c: char): (r: string)
    ensures StartsWith(s, r) && c !in r
    ensures |r| < |s| ==> s[|r|] == c
  {
    if s == [] || s[0] == c then [] else [s[0]] + Before(s[1..], c)
  }

  /** Splitting on a one-character separator: the first part is the text
      before the first occurrence of that character. */
  lemma {:induction false} SplitHeadIsBefore(s: string, c: char)
    ensures Split(s, [c])[0] == Before(s, c)
  {
    SplitFromHead(s, c, []);
  }

  lemma {:induction false} SplitFromHead(s: string, c: char, cur: string)
    ensures SplitFrom(s, [c], cur)[0] == cur + Before(s, c)
    decreases |s|
  {
    if s == [] || s[0] == c {
    } else {
      SplitFromHead(s[1..], c, cur + [s[0]]);
      assert cur + [s[0]] + Before(s[1..], c) == cur + ([s[0]] + Before(s[1..], c));
    }
  }

  /** A part that cannot contain the separator's first character ends at the
      next separator: `(a + sep + rest).split(sep)` is `[a]` followed by
      `rest.split(sep)`. */
  lemma {:induction false} SplitAfterPart(a: string, sep: string, rest: string)
    requires sep != []
    requires sep[0] !in a
    ensures Split(a + sep + rest, sep) == [a] + Split(rest, sep)
  {
    SplitFromAfterPart(a, sep, rest, []);
    assert [] + a == a;
  }

  lemma {:induction false} SplitFromAfterPart(a: string, sep: string, rest: string, cur: string)
    requires sep != []
    requires sep[0] !in a
    ensures SplitFrom(a + sep + rest, sep, cur) == [cur + a] + SplitFrom(rest, sep, [])
    decreases |a|
  {
    var s := a + sep + rest;
    if a == [] {
      assert s == sep + rest;
      assert StartsWith(s, sep);
      assert s[|sep|..] == rest;
      assert cur + a == cur;
    } else {
      assert s[0] == a[0] != sep[0];
      assert s[1..] == a[1..] + sep + rest;
      SplitFromAfterPart(a[1..], sep, rest, cur + [a[0]]);
      assert cur + [a[0]] + a[1..] == cur + a;
    }
  }

  /** The last part: a string without the separator's first character is
      not split at all. */
  lemma {:induction false} SplitWhole(a: string, sep: string)
    requires sep != []
    requires sep[0] !in a
    ensures Split(a, sep) == [a]
  {
    SplitFromWhole(a, sep, []);
    assert [] + a == a;
  }

  lemma {:induction false} SplitFromWhole(a: string, sep: string, cur: string)
    requires sep != []
    requires sep[0] !in a
    ensures SplitFrom(a, sep, cur) == [cur + a]
    decreases |a|
  {
    if a == [] {
      assert cur + a == cur;
    } else {
      assert a[0] != sep[0];
      assert !StartsWith(a, sep);
      assert a[1..] + [] == a[1..];
      SplitFromWhole(a[1..], sep, cur + [a[0]]);
      assert cur + [a[0]] + a[1..] == cur + a;
    }
  }
}

=== FILE: Wrappers.dfy ===
/** Option and Result: the absent values and thrown exceptions of the
    TypeScript source, written as values. */
module Wrappers {

  /** A value that may be missing (`null` / `undefined` in the source). */
  datatype Option<+T> = None | Some(value: T) {
    function GetOr(default: T): T {
      match this
      case Some(v) => v
      case None => default
    }
  }

  /** The outcome of a call into code outside the model: either its value,
      or the fact that it threw. What was thrown is never inspected by the
      modelled code (it is only logged), so it carries nothing. */
  datatype Result<+T> = Ok(value: T) | Thrown
}
